=== FILE: README.md ===
# ti-stress agent: a verified model

The ART `ti-stress` test agent (`test/ti-stress/stress.cc`) attaches to a
running VM through JVMTI and stresses it in two ways. With `redefine`, it
rewrites every class as it loads: it hands the class bytes to the external
`dexter` tool and gives the VM whatever the tool writes back. With `trace`,
it logs every method entry and exit, including the value a method returns.

This project models the sequential logic of that agent in Dafny and proves
properties of it. It covers:

- **The option reader.** `ReadOptions` and its `GetOption`, `AdvanceOption`
  and `HasNextOption` helpers are modelled over `std::string`'s `find` and
  `substr`. The `npos + 1 == 0` wrap is modelled explicitly (`StdString`,
  `Options`). A reference tokenizer (`OptionTokens`) and an abstract option
  grammar with an encoder (`OptionGrammar`) are the independent partners the
  reader is proved against. The proofs cover the round trip, order
  independence, and exactly which inputs are fatal.
- **The class-redefinition pipeline** (`Extract`). `WriteToFile`,
  `ReadIntoBuffer` and `DoExtractClassFromData` work over a file system
  modelled as `map<string, seq<byte>>`. The external tool is an oracle from
  (argument vector, files) to (exit code, files).
- **The load hook** (`Hook`): name conversion, the class-loader gate, and the
  two output parameters.
- **The agent's lifetime** (`Agent`): load, VM init and class loads as a
  sequence of callbacks. This module proves that the class-loader flag is a
  latch that only VM init sets. It also proves that nothing is rewritten and
  no file is touched before then.
- **The method-exit rendering** (`Render`): the return type cut from a method
  descriptor, the type-character dispatch of `GetValOf`, the `String`
  decoration of `GetName`, and the "Cause" line.

VM-supplied values are inputs of the model. These are the class signatures,
string contents, whether `VMClassLoader` was found, and the printed text of
numbers.

Behaviour of the code as written that a reader might not expect:

- The hook itself never looks at `redefine_stress`. The option only decides
  whether the class-file-load event is switched on at load time (lines
  441-448), and `Agent.Step` models it that way.
- A `redefine` cut short is not rejected. Once no comma is left,
  `AdvanceOption` returns its input unchanged, so each missing argument
  repeats the last token present. For example, `jvmti-stress,redefine,A`
  uses `A` as the command and as both paths (`OptionExamples.OneArgumentRedefine`).
- Because both temp paths are then `A`, the truncation of the output file
  wipes the class bytes just written, so the tool is always handed an empty
  input file, and even a copying tool fails
  (`Extract.SharedTempPathClobbersInput`). The command is `A` as well, so
  staging also empties the file the tool is started from
  (`Extract.OneArgumentStagingEmptiesTool`).
- Repeated segments are accepted, and the last `redefine` wins.
- Empty command and path tokens are accepted (`OptionExamples.EmptyRedefineArguments`).
- A bare `jvmti-stress` has no comma, so the reader reads the marker itself
  as an option and aborts with "Unknown option: jvmti-stress".
- A trailing comma where an option is expected yields an empty option
  token, which is fatal. After a `redefine` with fewer than three arguments,
  the comma instead supplies an empty argument, so `jvmti-stress,redefine,A,`
  is accepted with both paths empty (`OptionExamples.TrailingCommaAfterShortRedefine`).
- If the tool removes its output file, reading it fails. `tellg` then reports
  -1, which as a `size_t` asks the buffer for the largest possible size, and
  the process dies. The model reports this as `Aborted`.
- The class-loader flag is set only when `VMClassLoader` is found. On a VM
  without it, no class is ever rewritten.

## Model

| member | source | states |
|---|---|---|
| `StdString.Find` | test/ti-stress/stress.cc:317-319 | `find` yields `npos` exactly when the character is absent; otherwise it yields the first position holding it |
| `StdString.AfterFound` | test/ti-stress/stress.cc:313-315 | one past a found index, and 0 for `npos`, whose successor wraps around |
| `StdString.Substr` | test/ti-stress/stress.cc:321-323 | `substr` returns at most `count` characters from `pos`, and `npos` means "to the end" |
| `StdString.CString` | test/ti-stress/stress.cc:288 | a `std::string` built from a C string keeps exactly the characters before the first NUL |
| `Options.GetOption` | test/ti-stress/stress.cc:321-323 | the result has no comma; it is the whole input when there is no comma, otherwise the exact prefix before the first comma |
| `Options.AdvanceOption` | test/ti-stress/stress.cc:313-315 | with a comma, the input is the first option, a comma, then the result; without one, the result is the input unchanged |
| `Options.HasNextOption` | test/ti-stress/stress.cc:317-319 | true exactly when the remaining text holds a comma |
| `Options.ReadOptions` | test/ti-stress/stress.cc:325-347 | acceptance needs the marker as first option and at least one comma; the class-loader flag is never set by reading options |
| `Options.OptionLoop` | test/ti-stress/stress.cc:330-346 | the loop only fails on an unknown option, never clears the `trace` or `redefine` switch once set, and leaves the class-loader flag alone |
| `OptionTokens.SplitJoin` | test/ti-stress/stress.cc:313-323 | splitting at commas undoes joining for comma-free tokens (the reference tokenizer's round trip) |
| `OptionTokens.JoinSplit` | test/ti-stress/stress.cc:313-323 | joining the comma-separated pieces gives back the original text |
| `OptionTokens.HelpersMatchTokens` | test/ti-stress/stress.cc:313-323 | `GetOption` is the first token and `HasNextOption` asks for a second; `AdvanceOption` drops the first token, or nothing when it is the only one |
| `OptionTokens.LoopMatchesScan` | test/ti-stress/stress.cc:330-346 | the do-while over the remaining string computes the same result as the scan over the token list |
| `OptionTokens.ReadOptionsScansTokens` | test/ti-stress/stress.cc:327-347 | reading a string is rejecting a wrong first token, or scanning its tokens from the marker on |
| `OptionGrammar.RoundTrip` | test/ti-stress/stress.cc:325-347 | the reader decodes the rendering of any non-empty list of well-formed segments to exactly their meaning: `trace` sets only its switch; `redefine` sets its switch, then command, in-path and out-path in that order |
| `OptionGrammar.SegmentOrderIrrelevant` | test/ti-stress/stress.cc:330-346 | any rearrangement of the same segments, whose redefines agree, reads to the same settings |
| `OptionGrammar.UnknownOptionIsFatal` | test/ti-stress/stress.cc:343-345 | after any well-formed prefix, a token other than `trace` or `redefine` aborts, naming that token, whatever follows |
| `OptionGrammar.TrailingCommaIsFatal` | test/ti-stress/stress.cc:343-346 | a trailing comma after a string spelled from complete segments aborts on the empty option |
| `OptionGrammar.TruncatedRedefineRepeats` | test/ti-stress/stress.cc:335-342 | a final `redefine` with fewer than three arguments is accepted, each missing argument repeating the last token present |
| `OptionGrammar.NoCommaIsFatal` | test/ti-stress/stress.cc:329-345 | a string without a comma is always rejected: the bare marker as an unknown option, anything else as a missing marker |
| `OptionGrammar.MarkerIsFirstToken` | test/ti-stress/stress.cc:329 | a missing-marker error happens exactly when the first token is not `jvmti-stress`; acceptance needs at least two tokens; an unknown option is always a token of the input |
| `OptionGrammar.WellFormedBySegment` | test/ti-stress/stress.cc:326 | a segment list spells comma-free tokens exactly when each of its segments does |
| `OptionExamples.BareMarkerRejected` | test/ti-stress/stress.cc:329-346 | `jvmti-stress` alone aborts with the unknown option `jvmti-stress` |
| `OptionExamples.OneArgumentRedefine` | test/ti-stress/stress.cc:335-342 | `jvmti-stress,redefine,A` sets the command and both paths to `A` |
| `OptionExamples.TrailingCommaAfterShortRedefine` | test/ti-stress/stress.cc:335-346 | `jvmti-stress,redefine,A,` is accepted with command `A` and both paths empty: the trailing comma supplies an empty argument rather than an empty option |
| `OptionExamples.EmptyRedefineArguments` | test/ti-stress/stress.cc:335-342 | `jvmti-stress,redefine,,,` is accepted with an empty command and empty paths |
| `OptionExamples.ReadTraceThenRedefine` | test/ti-stress/stress.cc:333-342 | `trace` then `redefine,A,B,C` gives command `A`, in-path `B`, out-path `C`, both switches on |
| `OptionExamples.ReadRedefineThenTrace` | test/ti-stress/stress.cc:333-342 | the same two segments in the other order give the same settings |
| `Extract.WriteToFile` | test/ti-stress/stress.cc:43-47 | after the write the file holds exactly the data, whatever it held before, and every other file is unchanged |
| `Extract.ReadIntoBuffer` | test/ti-stress/stress.cc:49-57 | a missing file is fatal; otherwise the buffer is the file's contents and success means it is non-empty |
| `Extract.WriteThenRead` | test/ti-stress/stress.cc:43-57 | reading a path back after writing it yields the data written, with success exactly when it is non-empty |
| `Extract.WritesToOtherPathsCommute` | test/ti-stress/stress.cc:43-47 | writes to distinct paths commute and do not disturb each other |
| `Extract.DexterArgs` | test/ti-stress/stress.cc:71-81 | the command line is exactly `[dexter_cmd, "-x", "full_rewrite", "-e", class_name, "-o", out_temp_dex, in_temp_dex]` |
| `Extract.StageFiles` | test/ti-stress/stress.cc:65-69 | before the tool runs, the output file is empty and the input file holds the class bytes (unless the paths coincide); no other file changes |
| `Extract.FinishExtraction` | test/ti-stress/stress.cc:83-87 | a nonzero exit is a failure with an empty buffer; after a zero exit, the output file is read, and a missing output file kills the process |
| `Extract.DoExtractClassFromData` | test/ti-stress/stress.cc:60-88 | the tool runs once, with the fixed command line, on the files as staged; a nonzero exit fails with an empty buffer; after a zero exit a missing output file kills the process, and otherwise the result is that file's bytes, with success exactly when there is at least one |
| `Extract.ExtractionSucceeds` | test/ti-stress/stress.cc:83-87 | success exactly when the tool exits with 0 and leaves a non-empty output file, whose bytes are returned |
| `Extract.NonzeroExitFails` | test/ti-stress/stress.cc:83-86 | a nonzero exit fails the extraction whatever the output file holds |
| `Extract.SilentToolFails` | test/ti-stress/stress.cc:67-69 | a tool that exits with 0 without writing fails, because the output file was truncated first (when it could be opened for writing) |
| `Extract.StaleFilesIrrelevant` | test/ti-stress/stress.cc:65-69 | when both temp paths can be opened for writing, their old contents cannot influence the tool run or the result |
| `Extract.EchoTool` | test/ti-stress/stress.cc:71-81 | the stand-in tool copies the file named last to the file named after `-o`, and exits with 1 on any other command line |
| `Extract.EchoRoundTrip` | test/ti-stress/stress.cc:60-88 | with a copying tool and distinct temp paths, the class bytes come back unchanged, and success is exactly "at least one byte" |
| `Extract.SharedTempPathClobbersInput` | test/ti-stress/stress.cc:66-69 | with equal temp paths the second write erases the input, so even a faithful tool yields failure |
| `Extract.OneArgumentStagingEmptiesTool` | test/ti-stress/stress.cc:65-69 | when the command and both temp paths coincide, the tool's own file and its input are both empty when it starts |
| `Hook.Replace` | test/ti-stress/stress.cc:291 | same length, and each character is replaced exactly when it is the old one |
| `Hook.DescriptorToDotted` | test/ti-stress/stress.cc:288-291 | the dotted name has the same length, every `/` becomes `.`, and every other character stays in place |
| `Hook.DottedNameRecoverable` | test/ti-stress/stress.cc:289-291 | for names without dots, turning `.` back into `/` recovers the loader's name |
| `Hook.ToJint` | test/ti-stress/stress.cc:304 | the cast to `jint` keeps the low 32 bits as a signed value, and sizes below 2^31 are unchanged |
| `Hook.ClassFileLoadHook` | test/ti-stress/stress.cc:277-311 | before the flag is set, nothing is touched; after, both outputs are always set, a null pointer goes with length 0, and a buffer is non-empty with its own length |
| `Hook.GateClosedIgnoresTool` | test/ti-stress/stress.cc:295-298 | with the flag clear, the result is the same for every tool, and outputs and files are untouched |
| `Hook.GateOpenRunsTool` | test/ti-stress/stress.cc:299-310 | with the flag set, the tool runs on the dotted name and the staged files; new bytes are handed back exactly when it exits with 0 and writes something, and a nonzero exit sets length 0 and null |
| `Hook.EchoHookReturnsClassBytes` | test/ti-stress/stress.cc:299-305 | end to end with a copying tool, a class's bytes come back unchanged with their length; an empty class is a failure |
| `Agent.AgentOnLoad` | test/ti-stress/stress.cc:397-448 | loading fails exactly on a bad option string; otherwise the record holds the options, the flag is clear, and the load hook is on exactly for `redefine` |
| `Agent.PerformFinalSetupVMInit` | test/ti-stress/stress.cc:364-374 | the flag becomes set exactly when it was set or `VMClassLoader` was found; nothing else in the record changes |
| `Agent.Step` | test/ti-stress/stress.cc:349-387 | one callback never clears the flag, sets it only for a VM init that found `VMClassLoader`, changes no option, and leaves a class load before the flag untouched |
| `Agent.FlagIsLatched` | test/ti-stress/stress.cc:364-374 | over any sequence of callbacks, a set flag stays set and the options keep their values |
| `Agent.FlagSetOnlyByVMInit` | test/ti-stress/stress.cc:364-374 | the flag ends up set only if it was already set or some VM init found `VMClassLoader` |
| `Agent.NothingBeforeVMInit` | test/ti-stress/stress.cc:295-298 | until VM init finds `VMClassLoader`, every class load leaves its outputs untouched, no file changes, and the process cannot die |
| `Agent.NoRedefineNoRewrite` | test/ti-stress/stress.cc:441-448 | without `redefine`, no callback sequence rewrites a class or touches a file |
| `Render.TagOfChar` | test/ti-stress/stress.cc:160-190 | a character decodes to a proper tag exactly when it starts a known descriptor, and the tag's character is the one decoded |
| `Render.TagRoundTrip` | test/ti-stress/stress.cc:160-190 | every proper tag is reached by decoding its own character |
| `Render.FirstChar` | test/ti-stress/stress.cc:160 | `type[0]` is the first character, or the terminating NUL for an empty string |
| `Render.ReturnType` | test/ti-stress/stress.cc:224-225 | the result is the text after the first `)`, or the whole signature when it has none |
| `Render.ReturnTypeOfDescriptor` | test/ti-stress/stress.cc:225 | the return type of `(params)ret` is `ret` |
| `Render.ReturnTypeOfCDescriptor` | test/ti-stress/stress.cc:224-225 | the same for a descriptor passed as a C string |
| `Render.GetName` | test/ti-stress/stress.cc:131-156 | an unknown class is `<UNKNOWN>`; otherwise the name starts with the class signature and differs from it exactly for `Ljava/lang/String;`, which gets the value or an "unable to get value" note |
| `Render.StringValueRecoverable` | test/ti-stress/stress.cc:146-148 | two strings rendered alike have the same text up to its first NUL: the decoration loses nothing |
| `Render.StringName` | test/ti-stress/stress.cc:139-151 | a `String` with available characters is named `Ljava/lang/String; (value: "…")` around its text |
| `Render.GetValOf` | test/ti-stress/stress.cc:158-192 | by first character: `[`/`L` give `null` or the name; `Z` gives `true` exactly for 1 and `false` otherwise; numbers give their text; `V` gives `<void>`; anything else is an error naming the type |
| `Render.EmptyTypeIsError` | test/ti-stress/stress.cc:160 | an empty type hits the default branch: `<ERROR Found type >` |
| `Render.MethodExitCause` | test/ti-stress/stress.cc:224-230 | an exception exit reads `exception` with no value, whatever the value; a normal one reads `return` and the rendered value of the return type |
| `Render.CauseTellsHowMethodLeft` | test/ti-stress/stress.cc:226-230 | the two kinds of exit are told apart by the character after the prefix |
| `Render.ExitOfDescriptor` | test/ti-stress/stress.cc:224-230 | a normal exit from `(params)ret` renders a value of type `ret` |
| `Render.VoidMethodExit` | test/ti-stress/stress.cc:187-188 | a void method's normal exit reads `return <void>.` |
| `Render.BooleanMethodExit` | test/ti-stress/stress.cc:164-165 | a boolean method's exit reads `true` only for the byte 1 |
| `Render.StringMethodExit` | test/ti-stress/stress.cc:161-163 | a `String` method's exit shows the string's text, or `null` |

## Left out

- JVMTI and JNI calls are not modelled; their results are inputs. This covers
  `GetEnvironmentLocalStorage`, `Allocate`, `FindClass`, `GetMethodID`,
  `GetClassSignature`, `GetStringUTFChars`, `GetThreadInfo`,
  `GetMethodName`, `Deallocate` and `DeleteLocalRef`. The `CHECK_EQ` aborts on
  a failed storage lookup or allocation are not modelled: both calls are
  taken to succeed.
- `ExecAndReturnCode` becomes the `Exec` oracle, and its error text is not
  modelled. A tool that cannot be started is an oracle result with a nonzero
  exit code.
- File streams become a map from path to bytes, and every write succeeds.
  In the source a failed open for writing is ignored, and the file keeps its
  old contents. A stale, read-only output file would then be read back after
  a tool that exits with 0 without writing. A stale, read-only input file
  would have the tool rewrite some other class. The model does not cover
  this.
- Extract.StaleFilesIrrelevant: holds only when both temp paths can be
  opened for writing, because unwritable paths are not modelled.
- Extract.SilentToolFails: holds only when the output temp path can be
  opened for writing, because unwritable paths are not modelled.
- Extract.WriteThenRead: holds only for a path that can be opened for
  writing, because unwritable paths are not modelled.
- Render.GetValOf: the seven numeric tags return a caller-supplied text
  instead of `ostringstream` formatting. `F` and `D` are floating point, and
  `B` prints as a character; those are stream semantics outside the model.
- `doJvmtiMethodBind`, `MethodEntryHook` and all `LOG` text are logging
  observers and are not modelled. Of the exit hook, only the "Cause" line is
  modelled; the thread and method names around it are not.
- `Agent_OnLoad`'s environment, capability and callback registration and
  their failure returns are VM plumbing and are not modelled. Enabling method
  events at VM init is only a flag, and a failure to enable them only logs.
- Concurrency is not modelled: callbacks are delivered one at a time.
- A null class name or a null option string cannot be built into a
  `std::string`. This is undefined behaviour in C++ and is not modelled.
- `size_t` and string lengths are unbounded in the model: `npos` is only a
  sentinel. `jint` truncation is modelled only where the hook casts the
  buffer size. The class data length is the length of the byte sequence.

## Findings

None. The surprising behaviours are listed above as what the code does.

=== FILE: agent.dfy ===
/**
 The agent over its lifetime: loading reads the options into a zero-filled
 record and switches the load hook on only for `redefine`; the VM-init
 callback sets the class-loader flag when `VMClassLoader` is found and turns
 on method events for `trace`; every later class load goes through the hook.
 The flag is a latch: only VM init sets it, nothing clears it, and until it is
 set no class is rewritten and no file is touched.
 */
module Agent {
  import opened StdString
  import opened Options
  import opened Extract
  import opened Hook

  /** The agent's state between callbacks. */
  datatype AgentState = AgentState(
    data: StressData,
    fs: FileSystem,
    classLoadHookEnabled: bool,
    methodEventsEnabled: bool)

  datatype LoadResult = Loaded(state: AgentState) | LoadFailed(error: OptionError)

  /**
   Loading the agent with the option C string `options`: a bad option kills
   the process; otherwise the record holds the options, the class-loader flag
   is clear, method events are off, and the load hook is on exactly when
   `redefine` was given.
   */
  function AgentOnLoad(options: string, fs: FileSystem): (r: LoadResult)
    ensures r.LoadFailed? <==> ReadOptions(CString(options)).Fatal?
    ensures r.Loaded? ==> r.state.data == ReadOptions(CString(options)).data
    ensures r.Loaded? ==> !r.state.data.vmClassLoaderInitialized
    ensures r.Loaded? ==> r.state.classLoadHookEnabled == r.state.data.redefineStress
    ensures r.Loaded? ==> !r.state.methodEventsEnabled && r.state.fs == fs
  {
    match ReadOptions(CString(options))
    case Fatal(e) => LoadFailed(e)
    case Parsed(d) => Loaded(AgentState(d, fs, d.redefineStress, false))
  }

  /**
   The class-loader half of the VM-init callback: the flag becomes set when
   `VMClassLoader` was found, and stays as it was otherwise.
   */
  function PerformFinalSetupVMInit(d: StressData, vmClassLoaderFound: bool): (r: StressData)
    ensures r.vmClassLoaderInitialized <==> d.vmClassLoaderInitialized || vmClassLoaderFound
    ensures r.(vmClassLoaderInitialized := d.vmClassLoaderInitialized) == d
  {
    if vmClassLoaderFound then d.(vmClassLoaderInitialized := true) else d
  }

  /** The callbacks the VM delivers after load. */
  datatype Event =
    | VMInit(vmClassLoaderFound: bool)
    | ClassLoad(name: string, classData: seq<byte>)

  datatype StepResult = Stepped(state: AgentState, output: HookOutput) | Crashed

  /**
   One callback. VM init runs the setup above and turns method events on for
   `trace`; a class load reaches the hook only if the hook was switched on at
   load time.
   */
  function Step(s: AgentState, e: Event, exec: Exec): (r: StepResult)
    ensures r.Stepped? ==> r.state.classLoadHookEnabled == s.classLoadHookEnabled
    ensures r.Stepped? ==> r.state.data.(vmClassLoaderInitialized := s.data.vmClassLoaderInitialized)
                           == s.data
    ensures r.Stepped? && s.data.vmClassLoaderInitialized ==> r.state.data.vmClassLoaderInitialized
    ensures r.Stepped? && r.state.data.vmClassLoaderInitialized && !s.data.vmClassLoaderInitialized
            ==> e == VMInit(true)
    ensures e.ClassLoad? && !s.data.vmClassLoaderInitialized
            ==> r == Stepped(s, Untouched)
  {
    match e
    case VMInit(found) =>
      var s1 := s.(data := PerformFinalSetupVMInit(s.data, found),
                   methodEventsEnabled := s.methodEventsEnabled || s.data.traceStress);
      Stepped(s1, Untouched)
    case ClassLoad(name, bytes) =>
      if !s.classLoadHookEnabled then Stepped(s, Untouched)
      else
        match ClassFileLoadHook(s.data, name, bytes, s.fs, exec)
        case Aborted => Crashed
        case Returned(out, fs1) => Stepped(s.(fs := fs1), out)
  }

  datatype RunResult =
    | Finished(state: AgentState, outputs: seq<HookOutput>)
    | Died(outputs: seq<HookOutput>)

  /** Delivers the callbacks in order, collecting the hook's outputs, until one kills the process. */
  function Run(s: AgentState, events: seq<Event>, exec: Exec): (r: RunResult)
    decreases |events|
  {
    if |events| == 0 then Finished(s, [])
    else
      match Step(s, events[0], exec)
      case Crashed => Died([])
      case Stepped(s1, out) =>
        match Run(s1, events[1..], exec)
        case Finished(s2, outs) => Finished(s2, [out] + outs)
        case Died(outs) => Died([out] + outs)
  }

  /**
   Once set, the flag stays set through any run, and every other setting keeps
   the value the options gave it.
   */
  lemma {:induction false} FlagIsLatched(s: AgentState, events: seq<Event>, exec: Exec)
    ensures var r := Run(s, events, exec);
            r.Finished? ==> r.state.data.(vmClassLoaderInitialized := s.data.vmClassLoaderInitialized)
                            == s.data
    ensures var r := Run(s, events, exec);
            r.Finished? && s.data.vmClassLoaderInitialized ==> r.state.data.vmClassLoaderInitialized
    decreases |events|
  {
    if |events| > 0 {
      match Step(s, events[0], exec)
      case Crashed =>
      case Stepped(s1, out) =>
        FlagIsLatched(s1, events[1..], exec);
    }
  }

  /** The flag ends up set only if it already was or some VM init found `VMClassLoader`. */
  lemma {:induction false} FlagSetOnlyByVMInit(s: AgentState, events: seq<Event>, exec: Exec)
    ensures var r := Run(s, events, exec);
            r.Finished? && r.state.data.vmClassLoaderInitialized
            ==> s.data.vmClassLoaderInitialized || VMInit(true) in events
    decreases |events|
  {
    if |events| > 0 {
      match Step(s, events[0], exec)
      case Crashed =>
      case Stepped(s1, out) =>
        FlagSetOnlyByVMInit(s1, events[1..], exec);
        assert forall x :: x in events[1..] ==> x in events;
    }
  }

  /**
   Before VM init finds `VMClassLoader` nothing happens to classes: every
   class load leaves the outputs untouched, the files stay as they were, and
   the process cannot die in the hook.
   */
  lemma {:induction false} NothingBeforeVMInit(s: AgentState, events: seq<Event>, exec: Exec)
    requires !s.data.vmClassLoaderInitialized && VMInit(true) !in events
    ensures var r := Run(s, events, exec);
            r.Finished? && r.state.fs == s.fs && !r.state.data.vmClassLoaderInitialized
            && |r.outputs| == |events|
            && forall k :: 0 <= k < |r.outputs| ==> r.outputs[k] == Untouched
    decreases |events|
  {
    if |events| > 0 {
      assert events[0] != VMInit(true);
      assert forall x :: x in events[1..] ==> x in events;
      var s1 := Step(s, events[0], exec).state;
      NothingBeforeVMInit(s1, events[1..], exec);
    }
  }

  /**
   Without `redefine` the hook is never on: no run rewrites a class or touches
   a file, whatever VM init reports.
   */
  lemma {:induction false} NoRedefineNoRewrite(s: AgentState, events: seq<Event>, exec: Exec)
    requires !s.classLoadHookEnabled
    ensures var r := Run(s, events, exec);
            r.Finished? && r.state.fs == s.fs
            && forall k :: 0 <= k < |r.outputs| ==> r.outputs[k] == Untouched
    decreases |events|
  {
    if |events| > 0 {
      var s1 := Step(s, events[0], exec).state;
      NoRedefineNoRewrite(s1, events[1..], exec);
    }
  }
}

=== FILE: extract.dfy ===
/**
 The class-extraction pipeline the load hook runs: write the class bytes to the
 input temp file, truncate the output temp file, run the dexter tool on them,
 and read back what it wrote. Files are a map from path to contents and the
 external tool is an oracle from (arguments, files) to (exit code, files); both
 are plain values, so every lemma here holds for any tool and any starting
 files.
 */
module Extract {
  import opened Options

  type byte = b: int | 0 <= b < 256

  /** The file system: the contents of every existing file, by path. */
  type FileSystem = map<string, seq<byte>>

  /** What running an external command yields: its exit code and the files after it. */
  datatype ExecResult = ExecResult(exitCode: int, fs: FileSystem)

  /** Runs a command line to completion against a file system. */
  type Exec = (seq<string>, FileSystem) -> ExecResult

  /** The tool is always asked for a full rewrite. */
  const DoFullRewrite := true

  /**
   Opens `name` for binary output with truncation and writes `data`: the file
   afterwards holds exactly `data`, whatever it held before, and no other
   file changes.
   */
  function WriteToFile(fs: FileSystem, name: string, data: seq<byte>): (r: FileSystem)
    ensures name in r && r[name] == data
    ensures r.Keys == fs.Keys + {name}
    ensures forall p :: p in fs && p != name ==> r[p] == fs[p]
  {
    fs[name := data]
  }

  /** The outcome of reading a file into a buffer. */
  datatype ReadResult =
    | Read(nonEmpty: bool, buffer: seq<byte>)
      /**
       The file could not be opened: `tellg` then reports -1, which as a
       `size_t` asks the buffer for the largest possible size, and the
       process dies.
       */
    | Unreadable

  /**
   Reads the whole file `name` into a buffer and reports whether it had any
   bytes at all.
   */
  function ReadIntoBuffer(fs: FileSystem, name: string): (r: ReadResult)
    ensures r.Unreadable? <==> name !in fs
    ensures r.Read? ==> r.buffer == fs[name] && (r.nonEmpty <==> |r.buffer| > 0)
  {
    if name !in fs then Unreadable
    else
      var len := |fs[name]|;
      Read(len != 0, fs[name][..len])
  }

  /** Reading a file back after writing it returns exactly what was written. */
  lemma WriteThenRead(fs: FileSystem, name: string, data: seq<byte>)
    ensures ReadIntoBuffer(WriteToFile(fs, name, data), name) == Read(|data| > 0, data)
  {
  }

  /** A later write to another path leaves an earlier write readable. */
  lemma WritesToOtherPathsCommute(fs: FileSystem, a: string, x: seq<byte>, b: string, y: seq<byte>)
    requires a != b
    ensures WriteToFile(WriteToFile(fs, a, x), b, y) == WriteToFile(WriteToFile(fs, b, y), a, x)
    ensures ReadIntoBuffer(WriteToFile(WriteToFile(fs, a, x), b, y), a) == Read(|x| > 0, x)
  {
  }

  /** The command line handed to the tool. */
  function DexterArgs(data: StressData, className: string): (args: seq<string>)
    ensures args == [data.dexterCmd, "-x", "full_rewrite", "-e", className,
                     "-o", data.outTempDex, data.inTempDex]
  {
    [data.dexterCmd]
    + (if DoFullRewrite then ["-x", "full_rewrite"] else [])
    + ["-e", className, "-o", data.outTempDex, data.inTempDex]
  }

  /**
   The two writes before the tool runs, in source order: the class bytes to
   the input path, then an empty output file. When the two paths coincide the
   second write wins and the class bytes are gone.
   */
  function StageFiles(data: StressData, inData: seq<byte>, fs: FileSystem): (r: FileSystem)
    ensures data.outTempDex in r && r[data.outTempDex] == []
    ensures data.inTempDex in r
    ensures data.inTempDex != data.outTempDex ==> r[data.inTempDex] == inData
    ensures data.inTempDex == data.outTempDex ==> r[data.inTempDex] == []
    ensures r.Keys == fs.Keys + {data.inTempDex, data.outTempDex}
    ensures forall p :: p in fs && p != data.inTempDex && p != data.outTempDex ==> r[p] == fs[p]
  {
    WriteToFile(WriteToFile(fs, data.inTempDex, inData), data.outTempDex, [])
  }

  /**
   The extraction's outcome: whether it succeeded, the buffer it filled (left
   empty when the tool failed) and the files afterwards; or the process dies
   reading an output file that does not exist.
   */
  datatype Extraction =
    | Extracted(ok: bool, dex: seq<byte>, fs: FileSystem)
    | ExtractAborted

  /** The extraction's verdict once the tool has run. */
  function FinishExtraction(e: ExecResult, outPath: string): (r: Extraction)
    ensures e.exitCode != 0 ==> r == Extracted(false, [], e.fs)
    ensures e.exitCode == 0 ==> (r.ExtractAborted? <==> outPath !in e.fs)
    ensures e.exitCode == 0 && r.Extracted? ==> r.dex == e.fs[outPath] && r.fs == e.fs
    ensures e.exitCode == 0 && r.Extracted? ==> (r.ok <==> |r.dex| > 0)
  {
    if e.exitCode != 0 then Extracted(false, [], e.fs)
    else
      match ReadIntoBuffer(e.fs, outPath)
      case Unreadable => ExtractAborted
      case Read(ok, buf) => Extracted(ok, buf, e.fs)
  }

  /**
   Stages the files, runs the tool on the staged files with the fixed command
   line, and reads the output file when the tool exits with status 0.
   */
  function DoExtractClassFromData(data: StressData, className: string, inData: seq<byte>,
                                  fs: FileSystem, exec: Exec): (r: Extraction)
    ensures var e := exec(DexterArgs(data, className), StageFiles(data, inData, fs));
            e.exitCode != 0 ==> r == Extracted(false, [], e.fs)
    ensures var e := exec(DexterArgs(data, className), StageFiles(data, inData, fs));
            e.exitCode == 0 ==> (r.ExtractAborted? <==> data.outTempDex !in e.fs)
    ensures var e := exec(DexterArgs(data, className), StageFiles(data, inData, fs));
            e.exitCode == 0 && data.outTempDex in e.fs
            ==> r == Extracted(|e.fs[data.outTempDex]| > 0, e.fs[data.outTempDex], e.fs)
  {
    var staged := StageFiles(data, inData, fs);
    var args := DexterArgs(data, className);
    FinishExtraction(exec(args, staged), data.outTempDex)
  }

  /**
   Success exactly when the tool exits with status 0 and leaves a non-empty
   output file; the buffer then holds that file's bytes.
   */
  lemma ExtractionSucceeds(data: StressData, className: string, inData: seq<byte>,
                           fs: FileSystem, exec: Exec)
    ensures var e := exec(DexterArgs(data, className), StageFiles(data, inData, fs));
            var r := DoExtractClassFromData(data, className, inData, fs, exec);
            (r.Extracted? && r.ok
             <==> e.exitCode == 0 && data.outTempDex in e.fs && |e.fs[data.outTempDex]| > 0)
            && (r.Extracted? && r.ok ==> r.dex == e.fs[data.outTempDex] && |r.dex| > 0)
  {
  }

  /** A tool that fails fails the extraction, whatever it left in the output file. */
  lemma NonzeroExitFails(data: StressData, className: string, inData: seq<byte>,
                         fs: FileSystem, exec: Exec)
    requires exec(DexterArgs(data, className), StageFiles(data, inData, fs)).exitCode != 0
    ensures DoExtractClassFromData(data, className, inData, fs, exec).Extracted?
    ensures !DoExtractClassFromData(data, className, inData, fs, exec).ok
  {
  }

  /**
   A tool that exits with status 0 but writes nothing fails the extraction:
   the output file was truncated before it ran.
   */
  lemma SilentToolFails(data: StressData, className: string, inData: seq<byte>,
                        fs: FileSystem, exec: Exec)
    requires var staged := StageFiles(data, inData, fs);
             exec(DexterArgs(data, className), staged) == ExecResult(0, staged)
    ensures DoExtractClassFromData(data, className, inData, fs, exec)
            == Extracted(false, [], StageFiles(data, inData, fs))
  {
  }

  /**
   Stale temp files do not matter: starting file systems that differ only at
   the two temp paths give the same tool run and the same result.
   */
  lemma StaleFilesIrrelevant(data: StressData, className: string, inData: seq<byte>,
                             fs1: FileSystem, fs2: FileSystem, exec: Exec)
    requires fs1.Keys + {data.inTempDex, data.outTempDex} == fs2.Keys + {data.inTempDex, data.outTempDex}
    requires forall p :: p in fs1 && p in fs2 && p != data.inTempDex && p != data.outTempDex
                         ==> fs1[p] == fs2[p]
    ensures StageFiles(data, inData, fs1) == StageFiles(data, inData, fs2)
    ensures DoExtractClassFromData(data, className, inData, fs1, exec)
            == DoExtractClassFromData(data, className, inData, fs2, exec)
  {
    var s1 := StageFiles(data, inData, fs1);
    var s2 := StageFiles(data, inData, fs2);
    assert s1.Keys == s2.Keys;
    forall p | p in s1 ensures s1[p] == s2[p] {
      if p != data.inTempDex && p != data.outTempDex {
        assert p in fs1 && p in fs2;
      }
    }
  }

  /**
   A stand-in tool that copies its input file (last argument) to its output
   file (the argument after `-o`) and exits with 0; on any other command line
   it exits with 1.
   */
  function EchoTool(args: seq<string>, fs: FileSystem): (r: ExecResult)
    ensures |args| == 8 && args[5] == "-o" && args[7] in fs
            ==> r == ExecResult(0, WriteToFile(fs, args[6], fs[args[7]]))
    ensures !(|args| == 8 && args[5] == "-o" && args[7] in fs) ==> r.exitCode == 1
  {
    if |args| == 8 && args[5] == "-o" && args[7] in fs then
      ExecResult(0, fs[args[6] := fs[args[7]]])
    else ExecResult(1, fs)
  }

  /**
   End to end with a tool that copies its input: with distinct temp paths the
   class bytes come back unchanged, and the extraction succeeds exactly when
   there was at least one byte.
   */
  lemma EchoRoundTrip(data: StressData, className: string, inData: seq<byte>, fs: FileSystem)
    requires data.inTempDex != data.outTempDex
    ensures var r := DoExtractClassFromData(data, className, inData, fs, EchoTool);
            r.Extracted? && r.dex == inData && (r.ok <==> |inData| > 0)
  {
    var staged := StageFiles(data, inData, fs);
    var args := DexterArgs(data, className);
    assert args[5] == "-o" && args[6] == data.outTempDex && args[7] == data.inTempDex;
  }

  /**
   When the command and both temp paths are one path, as a `redefine` with a
   single argument makes them, staging leaves that file empty: whatever tool
   runs is started from an empty file and is handed an empty input.
   */
  lemma OneArgumentStagingEmptiesTool(data: StressData, inData: seq<byte>, fs: FileSystem)
    requires data.dexterCmd == data.inTempDex == data.outTempDex
    ensures var staged := StageFiles(data, inData, fs);
            data.dexterCmd in staged && staged[data.dexterCmd] == [] && staged[data.inTempDex] == []
  {
  }

  /**
   With the same path for input and output the truncation of the output file
   also wipes the input: even a tool that copies faithfully yields nothing,
   and the extraction always fails.
   */
  lemma SharedTempPathClobbersInput(data: StressData, className: string, inData: seq<byte>,
                                    fs: FileSystem)
    requires data.inTempDex == data.outTempDex
    ensures var r := DoExtractClassFromData(data, className, inData, fs, EchoTool);
            r.Extracted? && !r.ok && r.dex == []
  {
    var args := DexterArgs(data, className);
    assert args[5] == "-o" && args[6] == data.outTempDex && args[7] == data.inTempDex;
  }
}

=== FILE: hook.dfy ===
/**
 The class-file-load hook: it turns the loader's internal class name into the
 dotted form, does nothing at all until the class-loader flag is set, and
 otherwise runs the extraction and reports its result through the two output
 parameters for the new class bytes.
 */
module Hook {
  import opened StdString
  import opened Options
  import opened Extract

  /** `s` with every `a` replaced by `b`, position for position. */
  function Replace(s: string, a: char, b: char): (r: string)
    ensures |r| == |s|
    ensures forall i :: 0 <= i < |s| ==> r[i] == (if s[i] == a then b else s[i])
  {
    if |s| == 0 then []
    else [if s[0] == a then b else s[0]] + Replace(s[1..], a, b)
  }

  /**
   The class name handed to the tool: the loader's `java/lang/Object` form
   with every `/` turned into `.` (inner classes keep their `$`).
   */
  function DescriptorToDotted(name: string): (r: string)
    ensures |r| == |name| && '/' !in r
    ensures forall i :: 0 <= i < |name| && name[i] != '/' ==> r[i] == name[i]
    ensures forall i :: 0 <= i < |name| && name[i] == '/' ==> r[i] == '.'
  {
    Replace(name, '/', '.')
  }

  /** Replacing back undoes a replacement when the new character was absent. */
  lemma ReplaceBack(s: string, a: char, b: char)
    requires b !in s
    ensures Replace(Replace(s, a, b), b, a) == s
  {
    var r := Replace(s, a, b);
    var q := Replace(r, b, a);
    assert forall i :: 0 <= i < |s| ==> q[i] == s[i];
  }

  /** A name without dots is recovered from its dotted form. */
  lemma DottedNameRecoverable(name: string)
    requires '.' !in name
    ensures Replace(DescriptorToDotted(name), '.', '/') == name
  {
    ReplaceBack(name, '/', '.');
  }

  /**
   `static_cast<jint>` of a size: the low 32 bits read as a two's complement
   number.
   */
  function ToJint(n: nat): (r: int)
    ensures -0x8000_0000 <= r < 0x8000_0000
    ensures (n - r) % 0x1_0000_0000 == 0
    ensures n < 0x8000_0000 ==> r == n
  {
    var low := n % 0x1_0000_0000;
    if low < 0x8000_0000 then low else low - 0x1_0000_0000
  }

  /** The new-class-data pointer: null, or a buffer holding these bytes. */
  datatype ClassData = Null | Buffer(bytes: seq<byte>)

  /** What the hook did to its two output parameters. */
  datatype HookOutput =
    | Untouched
    | Set(newLen: int, newData: ClassData)

  /** The hook returns, or the process dies inside the extraction. */
  datatype HookResult =
    | Returned(output: HookOutput, fs: FileSystem)
    | Aborted

  /**
   The load hook for a class called `name` (a C string) with bytes
   `classData`. Before the flag is set it returns at once, touching nothing.
   Otherwise it extracts; success hands back a copy of the tool's output
   and its length, failure sets length 0 and a null pointer.
   */
  function ClassFileLoadHook(data: StressData, name: string, classData: seq<byte>,
                             fs: FileSystem, exec: Exec): (r: HookResult)
    ensures !data.vmClassLoaderInitialized ==> r == Returned(Untouched, fs)
    ensures data.vmClassLoaderInitialized && r.Returned? ==> r.output.Set?
    ensures r.Returned? && r.output.Set? && r.output.newData.Null? ==> r.output.newLen == 0
    ensures r.Returned? && r.output.Set? && r.output.newData.Buffer?
            ==> |r.output.newData.bytes| > 0
                && r.output.newLen == ToJint(|r.output.newData.bytes|)
  {
    var nameStr := DescriptorToDotted(CString(name));
    if !data.vmClassLoaderInitialized then Returned(Untouched, fs)
    else
      match DoExtractClassFromData(data, nameStr, classData, fs, exec)
      case ExtractAborted => Aborted
      case Extracted(ok, out, fs1) =>
        if ok then Returned(Set(ToJint(|out|), Buffer(out)), fs1)
        else Returned(Set(0, Null), fs1)
  }

  /**
   With the flag clear the hook neither runs the tool nor changes any file:
   its result is the same for every tool.
   */
  lemma GateClosedIgnoresTool(data: StressData, name: string, classData: seq<byte>,
                              fs: FileSystem, exec1: Exec, exec2: Exec)
    requires !data.vmClassLoaderInitialized
    ensures ClassFileLoadHook(data, name, classData, fs, exec1)
            == ClassFileLoadHook(data, name, classData, fs, exec2)
            == Returned(Untouched, fs)
  {
  }

  /**
   With the flag set, the tool runs once, on the staged files, with the dotted
   class name on its command line; the hook hands back new class bytes
   exactly when it exits with 0 and leaves a non-empty output file, and those
   bytes are that file's.
   */
  lemma GateOpenRunsTool(data: StressData, name: string, classData: seq<byte>,
                         fs: FileSystem, exec: Exec)
    requires data.vmClassLoaderInitialized
    ensures var e := exec(DexterArgs(data, DescriptorToDotted(CString(name))),
                          StageFiles(data, classData, fs));
            var r := ClassFileLoadHook(data, name, classData, fs, exec);
            && (r.Aborted? <==> e.exitCode == 0 && data.outTempDex !in e.fs)
            && (r.Returned? ==> r.fs == e.fs)
            && (r.Returned? && r.output.Set? && r.output.newData.Buffer?
                <==> e.exitCode == 0 && data.outTempDex in e.fs
                     && |e.fs[data.outTempDex]| > 0)
            && (r.Returned? && r.output.Set? && r.output.newData.Buffer?
                ==> r.output.newData.bytes == e.fs[data.outTempDex])
            && (e.exitCode != 0 ==> r == Returned(Set(0, Null), e.fs))
  {
    ExtractionSucceeds(data, DescriptorToDotted(CString(name)), classData, fs, exec);
  }

  /**
   End to end with a tool that copies its input: with the flag set and distinct
   temp paths, a class with bytes gets exactly those bytes back, and a class
   with none is reported as a failed extraction.
   */
  lemma EchoHookReturnsClassBytes(data: StressData, name: string, classData: seq<byte>,
                                  fs: FileSystem)
    requires data.vmClassLoaderInitialized && data.inTempDex != data.outTempDex
    requires |classData| < 0x8000_0000
    ensures var r := ClassFileLoadHook(data, name, classData, fs, EchoTool);
            r.Returned? && r.output.Set?
            && (|classData| > 0 ==> r.output == Set(|classData|, Buffer(classData)))
            && (|classData| == 0 ==> r.output == Set(0, Null))
  {
    EchoRoundTrip(data, DescriptorToDotted(CString(name)), classData, fs);
  }
}

=== FILE: option_examples.dfy ===
/**
 The reader's behaviour on a few concrete option strings, each following from
 the general lemmas.
 */
module OptionExamples {
  import opened Options
  import opened OptionTokens
  import opened OptionGrammar

  /** The bare marker is rejected as an unknown option, not accepted as empty. */
  lemma BareMarkerRejected()
    ensures ReadOptions("jvmti-stress") == Fatal(UnknownOption("jvmti-stress"))
  {
    NoCommaIsFatal("jvmti-stress");
  }

  lemma ReadTraceThenRedefine()
    ensures ReadOptions(Spell([Trace, Redefine("A", "B", "C")]))
         == Parsed(StressData("A", "C", "B", false, true, true))
  {
    var gs := [Trace, Redefine("A", "B", "C")];
    assert Tokens(gs[1..]) == ["redefine", "A", "B", "C"];
    RoundTrip(gs);
  }

  lemma ReadRedefineThenTrace()
    ensures ReadOptions(Spell([Redefine("A", "B", "C"), Trace]))
         == Parsed(StressData("A", "C", "B", false, true, true))
  {
    var gs := [Redefine("A", "B", "C"), Trace];
    assert Tokens(gs[1..]) == ["trace"];
    RoundTrip(gs);
  }

  /** A `redefine` with one argument uses it for the command and both paths. */
  lemma OneArgumentRedefine()
    ensures ReadOptions("jvmti-stress,redefine,A")
         == Parsed(StressData("A", "A", "A", false, false, true))
  {
    var toks := [RedefineOption] + ["A"];
    JoinAppend(["redefine"], ["A"]);
    JoinAppend(["jvmti-stress"], ["redefine", "A"]);
    assert Tokens([]) == [];
    assert [Marker] + Tokens([]) + toks == ["jvmti-stress", "redefine", "A"];
    assert Join([Marker] + Tokens([]) + toks) == "jvmti-stress,redefine,A";
    TruncatedRedefineRepeats([], ["A"]);
  }

  /**
   A trailing comma after a short `redefine` is not fatal: it supplies an
   empty argument, which the missing last one then repeats.
   */
  lemma TrailingCommaAfterShortRedefine()
    ensures ReadOptions("jvmti-stress,redefine,A,")
         == Parsed(StressData("A", "", "", false, false, true))
  {
    var toks := [RedefineOption] + ["A", ""];
    JoinAppend(["A"], [""]);
    JoinAppend(["redefine"], ["A", ""]);
    JoinAppend(["jvmti-stress"], ["redefine", "A", ""]);
    assert Tokens([]) == [];
    assert [Marker] + Tokens([]) + toks == ["jvmti-stress", "redefine", "A", ""];
    assert Join([Marker] + Tokens([]) + toks) == "jvmti-stress,redefine,A,";
    TruncatedRedefineRepeats([], ["A", ""]);
  }

  /** Empty command and paths are accepted with `redefine` switched on. */
  lemma EmptyRedefineArguments()
    ensures ReadOptions("jvmti-stress,redefine,,,")
         == Parsed(StressData("", "", "", false, false, true))
  {
    var gs := [Redefine("", "", "")];
    assert Tokens(gs) == ["redefine", "", "", ""];
    JoinAppend([""], [""]);
    JoinAppend([""], ["", ""]);
    JoinAppend(["redefine"], ["", "", ""]);
    JoinAppend(["jvmti-stress"], ["redefine", "", "", ""]);
    assert Spell(gs) == "jvmti-stress,redefine,,,";
    RoundTrip(gs);
  }
}

=== FILE: option_grammar.dfy ===
/**
 What the option reader accepts, stated over an abstract syntax: an option
 string is the marker followed by segments, each `trace` or `redefine` with
 three arguments. `Spell` writes segments out as text and `ApplySegments`
 gives their intended meaning; the lemmas show the reader decodes rendered
 text to exactly that meaning, in any segment order, and pin down what the
 reader does with text outside the grammar: an unknown or empty option token is fatal,
 a cut-off `redefine` repeats its last token, and a missing marker or a string
 with no comma is fatal.
 */
module OptionGrammar {
  import opened Options
  import opened OptionTokens

  datatype Segment = Trace | Redefine(cmd: string, inPath: string, outPath: string)

  /** The tokens a segment is spelled with. */
  function SegmentTokens(g: Segment): seq<string> {
    match g
    case Trace => [TraceOption]
    case Redefine(c, i, o) => [RedefineOption, c, i, o]
  }

  function Tokens(gs: seq<Segment>): seq<string> {
    if |gs| == 0 then [] else SegmentTokens(gs[0]) + Tokens(gs[1..])
  }

  /** Every token is free of commas, so it survives a trip through `Join`. */
  predicate CommaFree(t: seq<string>) {
    forall k :: 0 <= k < |t| ==> ',' !in t[k]
  }

  predicate WellFormed(gs: seq<Segment>) {
    CommaFree(Tokens(gs))
  }

  /** The option string that spells out `gs`. */
  function Spell(gs: seq<Segment>): string {
    Join([Marker] + Tokens(gs))
  }

  /** The intended effect of one segment on the settings record. */
  function ApplySegment(d: StressData, g: Segment): StressData {
    match g
    case Trace => d.(traceStress := true)
    case Redefine(c, i, o) =>
      d.(redefineStress := true, dexterCmd := c, inTempDex := i, outTempDex := o)
  }

  function ApplySegments(d: StressData, gs: seq<Segment>): StressData
    decreases |gs|
  {
    if |gs| == 0 then d else ApplySegments(ApplySegment(d, gs[0]), gs[1..])
  }

  /** Reading text built from comma-free tokens is scanning those tokens. */
  lemma ReadJoined(t: seq<string>)
    requires |t| >= 1 && CommaFree(t)
    ensures ReadOptions(Join(t)) == if t[0] != Marker then Fatal(MissingMarker(t[0]))
                                    else ScanFrom(t, 0, Zeroed)
  {
    SplitJoin(t);
    ReadOptionsScansTokens(Join(t));
  }

  /** Scanning every token of rendered segments after a first token `m`. */
  lemma ScanAll(m: string, gs: seq<Segment>, d: StressData)
    requires |gs| >= 1
    ensures ScanFrom([m] + Tokens(gs), 0, d) == Parsed(ApplySegments(d, gs))
  {
    var t := [m] + Tokens(gs);
    assert SpelledAt(t, 1, Tokens(gs));
    ScanReadsSegments(t, 0, gs, d);
  }

  /** Marker and tokens of well-formed segments are free of commas. */
  lemma MarkedCommaFree(gs: seq<Segment>, u: seq<string>)
    requires WellFormed(gs) && CommaFree(u)
    ensures CommaFree([Marker] + Tokens(gs) + u)
  {
    var t := [Marker] + Tokens(gs) + u;
    forall k | 0 <= k < |t| ensures ',' !in t[k] {
      if k == 0 {
      } else if k <= |Tokens(gs)| {
        assert t[k] == Tokens(gs)[k - 1];
      } else {
        assert t[k] == u[k - 1 - |Tokens(gs)|];
      }
    }
  }

  /**
   Where the scan goes after reading a segment that ends on token `k`: on to
   the next round if a token follows, otherwise it stops with `d`.
   */
  function Resume(t: seq<string>, k: nat, d: StressData): Parsed
    requires k < |t|
  {
    if k + 1 < |t| then ScanFrom(t, k, d) else Parsed(d)
  }

  /** The tokens `toks` appear in `t` starting at position `i`. */
  predicate SpelledAt(t: seq<string>, i: nat, toks: seq<string>) {
    i + |toks| <= |t| && forall n :: 0 <= n < |toks| ==> t[i + n] == toks[n]
  }

  /** Tokens spelled one after the other split into their two parts. */
  lemma SpelledAtSplit(t: seq<string>, i: nat, x: seq<string>, y: seq<string>)
    requires SpelledAt(t, i, x + y)
    ensures SpelledAt(t, i, x) && SpelledAt(t, i + |x|, y)
  {
    assert forall n :: 0 <= n < |x| ==> (x + y)[n] == x[n];
    assert forall n :: 0 <= n < |y| ==> (x + y)[|x| + n] == y[n];
  }

  /**
   The scan standing on token `j`, with segment `g` spelled right after it,
   reads `g` and resumes from `g`'s last token.
   */
  lemma ScanSegment(t: seq<string>, j: nat, g: Segment, d: StressData)
    requires SpelledAt(t, j + 1, SegmentTokens(g))
    ensures ScanFrom(t, j, d) == Resume(t, j + |SegmentTokens(g)|, ApplySegment(d, g))
  {
    var st := SegmentTokens(g);
    assert t[j + 1] == st[0];
    match g
    case Trace =>
    case Redefine(c, i, o) =>
      assert t[j + 2] == st[1] && t[j + 3] == st[2] && t[j + 4] == st[3];
  }

  /**
   Reading the segments `gs` spelled right after token `j` of the token list
   `t`: the scan, standing on token `j`, applies them in order and then
   resumes from the last token of `gs`.
   */
  lemma {:induction false} ScanReadsSegments(t: seq<string>, j: nat, gs: seq<Segment>, d: StressData)
    requires |gs| >= 1
    requires SpelledAt(t, j + 1, Tokens(gs))
    ensures ScanFrom(t, j, d) == Resume(t, j + |Tokens(gs)|, ApplySegments(d, gs))
    decreases |gs|
  {
    var g := gs[0];
    var st := SegmentTokens(g);
    var rest := gs[1..];
    var rt := Tokens(rest);
    var d1 := ApplySegment(d, g);
    var k1 := j + |st|;
    assert Tokens(gs) == st + rt;
    assert ApplySegments(d, gs) == ApplySegments(d1, rest);
    SpelledAtSplit(t, j + 1, st, rt);
    ScanSegment(t, j, g, d);
    if |rest| >= 1 {
      assert rt == SegmentTokens(rest[0]) + Tokens(rest[1..]);
      assert k1 + 1 < |t|;
      ScanReadsSegments(t, k1, rest, d1);
    } else {
      assert rt == [];
    }
  }

  /** The reader decodes a rendered option string to the segments' meaning. */
  lemma RoundTrip(gs: seq<Segment>)
    requires |gs| >= 1 && WellFormed(gs)
    ensures ReadOptions(Spell(gs)) == Parsed(ApplySegments(Zeroed, gs))
  {
    MarkedCommaFree(gs, []);
    assert [Marker] + Tokens(gs) + [] == [Marker] + Tokens(gs);
    ReadJoined([Marker] + Tokens(gs));
    ScanAll(Marker, gs, Zeroed);
  }

  /**
   The scan after a well-formed prefix `gs` followed by more tokens `u`: it
   stands on the last token of the prefix with everything the prefix set.
   */
  lemma ScanResumes(gs: seq<Segment>, u: seq<string>)
    requires |u| >= 1
    ensures var t := [Marker] + Tokens(gs) + u;
            ScanFrom(t, 0, Zeroed) == ScanFrom(t, |Tokens(gs)|, ApplySegments(Zeroed, gs))
  {
    if |gs| >= 1 {
      var t := [Marker] + Tokens(gs) + u;
      assert SpelledAt(t, 1, Tokens(gs));
      ScanReadsSegments(t, 0, gs, Zeroed);
    } else {
      assert Tokens(gs) == [];
    }
  }

  /** Text for the prefix `gs` followed by the extra tokens `u`. */
  lemma ReadWithSuffix(gs: seq<Segment>, u: seq<string>)
    requires WellFormed(gs) && |u| >= 1 && CommaFree(u)
    ensures var t := [Marker] + Tokens(gs) + u;
            ReadOptions(Join(t)) == ScanFrom(t, |Tokens(gs)|, ApplySegments(Zeroed, gs))
  {
    MarkedCommaFree(gs, u);
    ReadJoined([Marker] + Tokens(gs) + u);
    ScanResumes(gs, u);
  }

  /** The scan meets a token that is neither option right after token `j`. */
  lemma ScanUnknown(t: seq<string>, j: nat, d: StressData)
    requires j + 1 < |t| && t[j + 1] != TraceOption && t[j + 1] != RedefineOption
    ensures ScanFrom(t, j, d) == Fatal(UnknownOption(t[j + 1]))
  {
  }

  /**
   A token other than `trace` or `redefine` where an option is expected aborts
   the reader, naming that token, whatever follows it.
   */
  lemma UnknownOptionIsFatal(gs: seq<Segment>, tok: string, more: seq<string>)
    requires WellFormed(gs) && CommaFree([tok] + more)
    requires tok != TraceOption && tok != RedefineOption
    ensures ReadOptions(Join([Marker] + Tokens(gs) + ([tok] + more))) == Fatal(UnknownOption(tok))
  {
    ReadWithSuffix(gs, [tok] + more);
    var t := [Marker] + Tokens(gs) + ([tok] + more);
    assert t[|Tokens(gs)| + 1] == tok;
    ScanUnknown(t, |Tokens(gs)|, ApplySegments(Zeroed, gs));
  }

  /** A trailing comma yields an empty token where an option belongs: fatal. */
  lemma TrailingCommaIsFatal(gs: seq<Segment>)
    requires WellFormed(gs)
    ensures ReadOptions(Spell(gs) + ",") == Fatal(UnknownOption(""))
  {
    var t := [Marker] + Tokens(gs);
    assert t + ([""] + []) == t + [""];
    JoinAppend(t, [""]);
    assert Join(t + [""]) == Spell(gs) + ",";
    UnknownOptionIsFatal(gs, "", []);
  }

  /** Token `n` of `toks`, or the last token when there are not that many. */
  function Clamped(toks: seq<string>, n: nat): string
    requires |toks| >= 1
  {
    toks[if n < |toks| then n else |toks| - 1]
  }

  /**
   A `redefine` cut short after fewer than three arguments is not an error:
   once no comma is left, each further read returns the last token again, so
   every missing argument repeats the last token present (the word `redefine`
   itself when no argument follows it).
   */
  lemma TruncatedRedefineRepeats(gs: seq<Segment>, args: seq<string>)
    requires WellFormed(gs) && |args| <= 2 && CommaFree([RedefineOption] + args)
    ensures var toks := [RedefineOption] + args;
            ReadOptions(Join([Marker] + Tokens(gs) + toks))
            == Parsed(ApplySegments(Zeroed, gs).(redefineStress := true,
                                                 dexterCmd := Clamped(toks, 1),
                                                 inTempDex := Clamped(toks, 2),
                                                 outTempDex := Clamped(toks, 3)))
  {
    var toks := [RedefineOption] + args;
    ReadWithSuffix(gs, toks);
    var t := [Marker] + Tokens(gs) + toks;
    var m := |Tokens(gs)|;
    assert t[m + 1..] == toks;
    ScanTruncated(t, m, ApplySegments(Zeroed, gs));
  }

  /**
   The scan on a `redefine` that is the last segment and has at most two
   arguments after it: the reader stops there, with the missing arguments
   taken from the last token.
   */
  lemma ScanTruncated(t: seq<string>, m: nat, d: StressData)
    requires m + 1 < |t| <= m + 4 && t[m + 1] == RedefineOption
    ensures ScanFrom(t, m, d)
            == Parsed(d.(redefineStress := true,
                         dexterCmd := Clamped(t[m + 1..], 1),
                         inTempDex := Clamped(t[m + 1..], 2),
                         outTempDex := Clamped(t[m + 1..], 3)))
  {
    var toks := t[m + 1..];
    assert forall n :: 0 <= n < |toks| ==> toks[n] == t[m + 1 + n];
  }

  /** A string without a comma is always rejected, even the bare marker. */
  lemma NoCommaIsFatal(s: string)
    requires ',' !in s
    ensures ReadOptions(s) == if s == Marker then Fatal(UnknownOption(Marker))
                              else Fatal(MissingMarker(s))
  {
    SplitCommaFree(s);
    ReadOptionsScansTokens(s);
  }

  /**
   The reader insists on the marker as the first token and on at least one
   token after it; a wrong first token is reported as such, and any other
   failure names a token of the string.
   */
  lemma MarkerIsFirstToken(s: string)
    ensures ReadOptions(s).Fatal? && ReadOptions(s).error.MissingMarker?
            <==> Split(s)[0] != Marker
    ensures ReadOptions(s).Parsed? ==> Split(s)[0] == Marker && |Split(s)| >= 2
    ensures ReadOptions(s).Fatal? && ReadOptions(s).error.UnknownOption?
            ==> ReadOptions(s).error.option in Split(s)
  {
    ReadOptionsScansTokens(s);
    if |Split(s)| == 1 {
      assert Split(s) == [Split(s)[0]];
    }
  }

  /** Every redefine segment of `gs` is `r`. */
  predicate RedefinesAre(gs: seq<Segment>, r: Segment) {
    forall k :: 0 <= k < |gs| && gs[k].Redefine? ==> gs[k] == r
  }

  /**
   The meaning of segments that agree on their one redefine `r`: `trace` is on
   exactly when some segment says so, and the redefine fields come from `r`
   exactly when it occurs. Nothing depends on the order.
   */
  lemma {:induction false} ApplyUniform(d: StressData, gs: seq<Segment>, r: Segment)
    requires r.Redefine? && RedefinesAre(gs, r)
    ensures var d1 := if Trace in gs then d.(traceStress := true) else d;
            ApplySegments(d, gs) == if r in gs then ApplySegment(d1, r) else d1
    decreases |gs|
  {
    if |gs| > 0 {
      var rest := gs[1..];
      assert RedefinesAre(rest, r) by {
        forall k | 0 <= k < |rest| && rest[k].Redefine? ensures rest[k] == r {
          assert rest[k] == gs[k + 1];
        }
      }
      ApplyUniform(ApplySegment(d, gs[0]), rest, r);
      assert gs == [gs[0]] + rest;
      assert forall s :: s in gs <==> s == gs[0] || s in rest;
      assert gs[0].Redefine? ==> gs[0] == r;
    }
  }

  /** `gs` is well formed exactly when every one of its segments is. */
  lemma {:induction false} WellFormedBySegment(gs: seq<Segment>)
    ensures WellFormed(gs) <==> forall k :: 0 <= k < |gs| ==> CommaFree(SegmentTokens(gs[k]))
    decreases |gs|
  {
    if |gs| > 0 {
      WellFormedBySegment(gs[1..]);
      var st := SegmentTokens(gs[0]);
      var rt := Tokens(gs[1..]);
      assert Tokens(gs) == st + rt;
      assert CommaFree(st + rt) <==> CommaFree(st) && CommaFree(rt) by {
        assert forall n :: 0 <= n < |st| ==> (st + rt)[n] == st[n];
        assert forall n :: 0 <= n < |rt| ==> (st + rt)[|st| + n] == rt[n];
      }
      assert forall k :: 0 < k < |gs| ==> gs[k] == gs[1..][k - 1];
    }
  }

  /**
   Segments may come in any order: two arrangements of the same segments, all
   redefines among them equal, read to the same settings.
   */
  lemma SegmentOrderIrrelevant(gs1: seq<Segment>, gs2: seq<Segment>)
    requires |gs1| >= 1 && WellFormed(gs1)
    requires multiset(gs1) == multiset(gs2)
    requires forall a, b :: 0 <= a < |gs1| && 0 <= b < |gs1| && gs1[a].Redefine? && gs1[b].Redefine?
               ==> gs1[a] == gs1[b]
    ensures ReadOptions(Spell(gs1)) == ReadOptions(Spell(gs2))
  {
    assert forall s :: s in gs1 <==> s in gs2 by {
      forall s ensures s in gs1 <==> s in gs2 {
        assert s in gs1 <==> s in multiset(gs1);
        assert s in gs2 <==> s in multiset(gs2);
      }
    }
    assert |gs2| == |multiset(gs2)| == |multiset(gs1)| == |gs1|;
    WellFormedBySegment(gs1);
    WellFormedBySegment(gs2);
    assert WellFormed(gs2) by {
      forall k | 0 <= k < |gs2| ensures CommaFree(SegmentTokens(gs2[k])) {
        assert gs2[k] in gs1;
        var m :| 0 <= m < |gs1| && gs1[m] == gs2[k];
      }
    }
    var r := Redefine("", "", "");
    if k :| 0 <= k < |gs1| && gs1[k].Redefine? {
      r := gs1[k];
    }
    assert RedefinesAre(gs1, r);
    assert RedefinesAre(gs2, r) by {
      forall k | 0 <= k < |gs2| && gs2[k].Redefine? ensures gs2[k] == r {
        assert gs2[k] in gs1;
      }
    }
    ApplyUniform(Zeroed, gs1, r);
    ApplyUniform(Zeroed, gs2, r);
    RoundTrip(gs1);
    RoundTrip(gs2);
  }
}

=== FILE: option_tokens.dfy ===
/**
 A reference tokenizer for option strings, independent of the find/substr
 helpers: `Split` cuts a string at every comma, `Join` puts the pieces back.
 The lemmas tie the reader's helpers to it: `GetOption` is the first token,
 `AdvanceOption` drops the first token (or nothing, when there is only one),
 and `HasNextOption` asks whether a second token exists. `ScanFrom` restates
 the reader's loop over the token list, and `ReadOptionsScansTokens` proves the
 two agree.
 */
module OptionTokens {
  import opened Options

  /** The comma-separated tokens of `s`; empty tokens are kept. */
  function Split(s: string): (t: seq<string>)
    ensures |t| >= 1
    ensures forall i :: 0 <= i < |t| ==> ',' !in t[i]
    decreases |s|
  {
    if |s| == 0 then [""]
    else
      var rest := Split(s[1..]);
      if s[0] == ',' then [""] + rest
      else [[s[0]] + rest[0]] + rest[1..]
  }

  function Join(t: seq<string>): string
    requires |t| >= 1
  {
    if |t| == 1 then t[0] else t[0] + "," + Join(t[1..])
  }

  lemma {:induction false} JoinAppend(a: seq<string>, b: seq<string>)
    requires |a| >= 1 && |b| >= 1
    ensures Join(a + b) == Join(a) + "," + Join(b)
    decreases |a|
  {
    if |a| == 1 {
      assert (a + b)[1..] == b;
    } else {
      assert (a + b)[1..] == a[1..] + b;
      JoinAppend(a[1..], b);
    }
  }

  lemma {:induction false} SplitCommaFree(a: string)
    requires ',' !in a
    ensures Split(a) == [a]
    decreases |a|
  {
    if |a| > 0 {
      SplitCommaFree(a[1..]);
      assert [a[0]] + a[1..] == a;
    }
  }

  lemma {:induction false} SplitCons(a: string, b: string)
    requires ',' !in a
    ensures Split(a + "," + b) == [a] + Split(b)
    decreases |a|
  {
    var s := a + "," + b;
    if |a| == 0 {
      assert s[1..] == b;
    } else {
      assert s[1..] == a[1..] + "," + b;
      SplitCons(a[1..], b);
      assert [a[0]] + a[1..] == a;
    }
  }

  /** Splitting undoes joining, for tokens without commas. */
  lemma {:induction false} SplitJoin(t: seq<string>)
    requires |t| >= 1
    requires forall i :: 0 <= i < |t| ==> ',' !in t[i]
    ensures Split(Join(t)) == t
    decreases |t|
  {
    if |t| == 1 {
      SplitCommaFree(t[0]);
    } else {
      SplitJoin(t[1..]);
      SplitCons(t[0], Join(t[1..]));
      assert t == [t[0]] + t[1..];
    }
  }

  /** Joining undoes splitting: no character of the input is lost. */
  lemma {:induction false} JoinSplit(s: string)
    ensures Join(Split(s)) == s
    decreases |s|
  {
    if ',' !in s {
      SplitCommaFree(s);
    } else {
      var g := GetOption(s);
      var r := AdvanceOption(s);
      SplitCons(g, r);
      JoinSplit(r);
    }
  }

  /** The reader's three helpers, stated over the reference tokenizer. */
  lemma HelpersMatchTokens(s: string)
    ensures GetOption(s) == Split(s)[0]
    ensures HasNextOption(s) <==> |Split(s)| > 1
    ensures Split(AdvanceOption(s)) == if |Split(s)| > 1 then Split(s)[1..] else Split(s)
  {
    if ',' !in s {
      SplitCommaFree(s);
    } else {
      SplitCons(GetOption(s), AdvanceOption(s));
    }
  }

  /**
   The position the reader moves to from token `j`: the next token, or `j`
   itself when `j` is the last one, since advancing past the last comma
   returns what is left unchanged.
   */
  function Next(t: seq<string>, j: nat): (k: nat)
    requires j < |t|
    ensures j <= k < |t|
    ensures k == j <==> j + 1 == |t|
  {
    if j + 1 < |t| then j + 1 else j
  }

  /** One round of the reader's loop: stop with a result, or go on from token `k`. */
  datatype Round = Stop(result: Parsed) | Continue(k: nat, data: StressData)

  /**
   After a round that ends on token `k` with settings `d`: another round runs
   exactly when the reader is not on the last token.
   */
  function AfterRound(t: seq<string>, k: nat, d: StressData): (r: Round)
    requires k < |t|
    ensures r.Continue? <==> k + 1 < |t|
    ensures r.Continue? ==> r == Continue(k, d)
    ensures r.Stop? ==> r.result == Parsed(d)
  {
    if k + 1 < |t| then Continue(k, d) else Stop(Parsed(d))
  }

  /**
   One round of the reader's loop over the token list `t`, standing on token
   `j`: the option read is the token after `j`, and a `redefine` takes the
   three tokens after it.
   */
  function ScanStep(t: seq<string>, j: nat, d: StressData): (r: Round)
    requires j < |t|
    ensures r.Continue? ==> j < r.k < |t|
    ensures r.Stop? && r.result.Fatal?
            ==> r.result.error.UnknownOption? && r.result.error.option in t[j..]
  {
    var j1 := Next(t, j);
    if t[j1] == TraceOption then
      AfterRound(t, j1, d.(traceStress := true))
    else if t[j1] == RedefineOption then
      var j2 := Next(t, j1);
      var j3 := Next(t, j2);
      var j4 := Next(t, j3);
      AfterRound(t, j4, d.(redefineStress := true,
                           dexterCmd := t[j2],
                           inTempDex := t[j3],
                           outTempDex := t[j4]))
    else
      assert t[j1] == t[j..][j1 - j];
      Stop(Fatal(UnknownOption(t[j1])))
  }

  /** The reader's loop over the token list, round after round. */
  function ScanFrom(t: seq<string>, j: nat, d: StressData): (r: Parsed)
    requires j < |t|
    ensures r.Fatal? ==> r.error.UnknownOption? && r.error.option in t[j..]
    decreases |t| - j
  {
    match ScanStep(t, j, d)
    case Stop(r) => r
    case Continue(k, d1) =>
      assert t[k..] == t[j..][k - j..];
      ScanFrom(t, k, d1)
  }

  /** Moving the reader one token along, in both views. */
  lemma AdvanceMatchesNext(ops: string, t: seq<string>, j: nat)
    requires j < |t| && Split(ops) == t[j..]
    ensures Split(AdvanceOption(ops)) == t[Next(t, j)..]
    ensures GetOption(AdvanceOption(ops)) == t[Next(t, j)]
    ensures HasNextOption(ops) <==> j + 1 < |t|
  {
    HelpersMatchTokens(ops);
    HelpersMatchTokens(AdvanceOption(ops));
    if j + 1 < |t| {
      assert t[j..][1..] == t[j + 1..];
    }
  }

  /** The string loop and the token scan compute the same result. */
  lemma {:induction false} LoopMatchesScan(ops: string, t: seq<string>, j: nat, d: StressData)
    requires j < |t| && Split(ops) == t[j..]
    ensures OptionLoop(ops, d) == ScanFrom(t, j, d)
    decreases |ops|
  {
    var ops1 := AdvanceOption(ops);
    var j1 := Next(t, j);
    AdvanceMatchesNext(ops, t, j);
    var cur := GetOption(ops1);
    assert cur == t[j1];
    if cur == TraceOption {
      AdvanceMatchesNext(ops1, t, j1);
      if j1 + 1 < |t| {
        assert |ops1| < |ops|;
        LoopMatchesScan(ops1, t, j1, d.(traceStress := true));
      }
    } else if cur == RedefineOption {
      var ops2 := AdvanceOption(ops1);
      var ops3 := AdvanceOption(ops2);
      var ops4 := AdvanceOption(ops3);
      var j2 := Next(t, j1);
      var j3 := Next(t, j2);
      var j4 := Next(t, j3);
      AdvanceMatchesNext(ops1, t, j1);
      AdvanceMatchesNext(ops2, t, j2);
      AdvanceMatchesNext(ops3, t, j3);
      AdvanceMatchesNext(ops4, t, j4);
      if j4 + 1 < |t| {
        assert |ops4| < |ops|;
        var d1 := d.(redefineStress := true,
                     dexterCmd := t[j2],
                     inTempDex := t[j3],
                     outTempDex := t[j4]);
        LoopMatchesScan(ops4, t, j4, d1);
      }
    }
  }

  /**
   The whole reader over the token list: the first token must be the marker,
   and the scan starts on it.
   */
  lemma ReadOptionsScansTokens(s: string)
    ensures ReadOptions(s) == if Split(s)[0] != Marker then Fatal(MissingMarker(Split(s)[0]))
                              else ScanFrom(Split(s), 0, Zeroed)
  {
    HelpersMatchTokens(s);
    if Split(s)[0] == Marker {
      LoopMatchesScan(s, Split(s), 0, Zeroed);
    }
  }
}

=== FILE: options.dfy ===
/**
 The agent's option reader, modelled as written: a comma tokenizer over the
 option string, a mandatory leading `jvmti-stress` marker, a `trace` switch,
 a `redefine` switch that takes the next three tokens positionally, and a fatal
 error for anything else. Each helper works on the whole remaining string, the
 way the source does, including the `npos + 1 == 0` wrap in `AdvanceOption`.
 */
module Options {
  import opened StdString

  const Marker := "jvmti-stress"
  const TraceOption := "trace"
  const RedefineOption := "redefine"

  /** The agent's settings record. */
  datatype StressData = StressData(
    dexterCmd: string,
    outTempDex: string,
    inTempDex: string,
    vmClassLoaderInitialized: bool,
    traceStress: bool,
    redefineStress: bool)

  /** The record as the agent zero-fills it before reading options. */
  const Zeroed := StressData("", "", "", false, false, false)

  /** The two fatal checks of the reader; either one aborts the process. */
  datatype OptionError =
    | MissingMarker(found: string)
    | UnknownOption(option: string)

  datatype Parsed = Parsed(data: StressData) | Fatal(error: OptionError)

  /** The text before the first comma, or the whole string when there is none. */
  function GetOption(s: string): (r: string)
    ensures ',' !in r
    ensures ',' !in s ==> r == s
    ensures ',' in s ==> |r| < |s| && s[|r|] == ',' && r == s[..|r|]
  {
    Substr(s, 0, Find(s, ','))
  }

  /**
   The text after the first comma. Without a comma `find` yields `npos`, and
   `npos + 1` wraps to 0, so the whole string comes back unchanged.
   */
  function AdvanceOption(s: string): (r: string)
    ensures |r| <= |s|
    ensures ',' !in s ==> r == s
    ensures ',' in s ==> s == GetOption(s) + "," + r
  {
    var p := Find(s, ',');
    var r := Substr(s, AfterFound(p), Npos);
    assert ',' in s ==> s == s[..p.i] + "," + r by {
      if ',' in s {
        assert s == s[..p.i] + [s[p.i]] + s[p.i + 1..];
      }
    }
    r
  }

  function HasNextOption(s: string): (r: bool)
    ensures r <==> ',' in s
  {
    Find(s, ',') != Npos
  }

  /**
   Reads the option string. The first token must be the marker; then the loop
   below runs at least once.
   */
  function ReadOptions(options: string): (r: Parsed)
    ensures r.Parsed? ==> GetOption(options) == Marker && ',' in options
    ensures r.Parsed? ==> !r.data.vmClassLoaderInitialized
  {
    var first := GetOption(options);
    if first != Marker then Fatal(MissingMarker(first))
    else OptionLoop(options, Zeroed)
  }

  /**
   One run of the do-while body on the remaining text `ops`, followed by the
   loop test: another round happens exactly when what is left holds a comma.
   The reader only ever switches flags on, and never touches the class-loader
   flag.
   */
  function OptionLoop(ops: string, d: StressData): (r: Parsed)
    ensures r.Fatal? ==> r.error.UnknownOption?
    ensures r.Parsed? ==> r.data.vmClassLoaderInitialized == d.vmClassLoaderInitialized
    ensures r.Parsed? && d.traceStress ==> r.data.traceStress
    ensures r.Parsed? && d.redefineStress ==> r.data.redefineStress
    decreases |ops|
  {
    var ops1 := AdvanceOption(ops);
    var cur := GetOption(ops1);
    if cur == TraceOption then
      var d1 := d.(traceStress := true);
      if HasNextOption(ops1) then OptionLoop(ops1, d1) else Parsed(d1)
    else if cur == RedefineOption then
      var ops2 := AdvanceOption(ops1);
      var ops3 := AdvanceOption(ops2);
      var ops4 := AdvanceOption(ops3);
      var d1 := d.(redefineStress := true,
                   dexterCmd := GetOption(ops2),
                   inTempDex := GetOption(ops3),
                   outTempDex := GetOption(ops4));
      if HasNextOption(ops4) then OptionLoop(ops4, d1) else Parsed(d1)
    else
      Fatal(UnknownOption(cur))
  }
}

=== FILE: render.dfy ===
/**
 The text the method-exit hook writes about a returning method: the return
 type is cut from the method descriptor, its first character selects how the
 value is shown, object values are shown by class signature (with the text
 of a `java.lang.String`), and the cause line says whether the method
 returned or was popped by an exception. Values the VM supplies (class
 signatures, string contents, the text of numbers) are inputs.
 */
module Render {
  import opened Wrappers
  import opened StdString

  /** The kinds of value a JVM type descriptor can start with. */
  datatype TypeTag =
    | ArrayTag | ObjectTag | BooleanTag
    | ByteTag | CharTag | ShortTag | IntTag | LongTag | FloatTag | DoubleTag
    | VoidTag
    | OtherTag(c: char)

  /** The first characters of reference types: arrays and classes. */
  predicate IsReferenceChar(c: char) {
    c == '[' || c == 'L'
  }

  /** The first characters of the numeric primitive types. */
  predicate IsNumericChar(c: char) {
    c == 'B' || c == 'C' || c == 'S' || c == 'I' || c == 'J' || c == 'F' || c == 'D'
  }

  /** The characters that start a known descriptor. */
  predicate IsDescriptorChar(c: char) {
    IsReferenceChar(c) || c == 'Z' || IsNumericChar(c) || c == 'V'
  }

  /** The descriptor character a tag stands for. */
  function TagChar(t: TypeTag): char {
    match t
    case ArrayTag => '['
    case ObjectTag => 'L'
    case BooleanTag => 'Z'
    case ByteTag => 'B'
    case CharTag => 'C'
    case ShortTag => 'S'
    case IntTag => 'I'
    case LongTag => 'J'
    case FloatTag => 'F'
    case DoubleTag => 'D'
    case VoidTag => 'V'
    case OtherTag(c) => c
  }

  function TagOfChar(c: char): (t: TypeTag)
    ensures t.OtherTag? <==> !IsDescriptorChar(c)
    ensures TagChar(t) == c
  {
    match c
    case '[' => ArrayTag
    case 'L' => ObjectTag
    case 'Z' => BooleanTag
    case 'B' => ByteTag
    case 'C' => CharTag
    case 'S' => ShortTag
    case 'I' => IntTag
    case 'J' => LongTag
    case 'F' => FloatTag
    case 'D' => DoubleTag
    case 'V' => VoidTag
    case _ => OtherTag(c)
  }

  /** Every proper tag is what its own character decodes to. */
  lemma TagRoundTrip(t: TypeTag)
    requires !t.OtherTag? || !IsDescriptorChar(t.c)
    ensures TagOfChar(TagChar(t)) == t
  {
  }

  /**
   `type[0]`: the first character, or the terminating NUL when the string is
   empty.
   */
  function FirstChar(s: string): (c: char)
    ensures |s| > 0 ==> c == s[0]
    ensures |s| == 0 ==> c == '\0'
  {
    if |s| == 0 then '\0' else s[0]
  }

  function TagOf(typ: string): TypeTag {
    TagOfChar(FirstChar(typ))
  }

  /**
   The return type of a method descriptor: the text after the first `)`. With
   no `)`, `find` yields `npos`, `npos + 1` wraps to 0, and the whole string is
   kept.
   */
  function ReturnType(sig: string): (r: string)
    ensures ')' !in sig ==> r == sig
    ensures ')' in sig ==> var k := |sig| - |r| - 1;
                           0 <= k && sig[k] == ')' && ')' !in sig[..k] && sig[k + 1..] == r
  {
    var p := Find(sig, ')');
    Substr(sig, AfterFound(p), Npos)
  }

  /** The return type of `(params)ret` is `ret`. */
  lemma ReturnTypeOfDescriptor(params: string, ret: string)
    requires ')' !in params
    ensures ReturnType("(" + params + ")" + ret) == ret
  {
    var sig := "(" + params + ")" + ret;
    assert sig[|params| + 1] == ')';
    assert sig[..|params| + 1] == "(" + params;
    assert ')' in sig;
  }

  /** The same, for a descriptor that arrives as a C string. */
  lemma ReturnTypeOfCDescriptor(params: string, ret: string)
    requires ')' !in params && '\0' !in params && '\0' !in ret
    ensures ReturnType(CString("(" + params + ")" + ret)) == ret
  {
    var sig := "(" + params + ")" + ret;
    assert forall i :: 0 <= i < |sig| ==> sig[i] == '(' || sig[i] == ')' || sig[i] in params || sig[i] in ret;
    ReturnTypeOfDescriptor(params, ret);
  }

  const StringSignature := "Ljava/lang/String;"
  const UnknownName := "<UNKNOWN>"
  const NoValueSuffix := " (unable to get value)"

  /**
   An object as the VM describes it: its class signature (`None` when the
   lookup fails) and, for a string, its characters in modified UTF-8 (`None`
   when they cannot be had). Both arrive as C strings.
   */
  datatype JObject = JObject(classSignature: Option<string>, utfChars: Option<string>)

  /** The decoration added to a string's signature when its characters are available. */
  function ValueSuffix(v: string): string {
    " (value: \"" + v + "\")"
  }

  /**
   The name of an object's class: its signature, with the string's text (or a
   note that it is unavailable) appended for `java.lang.String` only;
   `<UNKNOWN>` when the class cannot be looked up.
   */
  function GetName(obj: JObject): (r: string)
    ensures obj.classSignature.None? ==> r == UnknownName
    ensures obj.classSignature.Some? ==> var sig := CString(obj.classSignature.value);
              && |sig| <= |r| && r[..|sig|] == sig
              && (r == sig <==> sig != StringSignature)
    ensures obj.classSignature.Some? && CString(obj.classSignature.value) == StringSignature
            ==> r == StringSignature + (if obj.utfChars.None? then NoValueSuffix
                                        else ValueSuffix(CString(obj.utfChars.value)))
  {
    match obj.classSignature
    case None => UnknownName
    case Some(cname) =>
      var name := CString(cname);
      if name == StringSignature then
        match obj.utfChars
        case None => name + NoValueSuffix
        case Some(val) => name + ValueSuffix(CString(val))
      else name
  }

  /**
   A string's text can be read back from its name: two strings with
   available characters get the same name only if their texts agree.
   */
  lemma StringValueRecoverable(v1: string, v2: string)
    ensures GetName(JObject(Some(StringSignature), Some(v1)))
            == GetName(JObject(Some(StringSignature), Some(v2)))
            ==> CString(v1) == CString(v2)
  {
    StringName(v1);
    StringName(v2);
    if StringSignature + ValueSuffix(CString(v1)) == StringSignature + ValueSuffix(CString(v2)) {
      DecoratedValueInjective(StringSignature, CString(v1), CString(v2));
    }
  }

  /** The text inside a value decoration is determined by the decorated name. */
  lemma DecoratedValueInjective(p: string, v1: string, v2: string)
    requires p + ValueSuffix(v1) == p + ValueSuffix(v2)
    ensures v1 == v2
  {
    var n := |p| + |" (value: \""|;
    var a := p + ValueSuffix(v1);
    assert a[n..|a| - 2] == v1;
    assert a[n..|a| - 2] == v2;
  }

  /** An unsigned `jboolean`. */
  type JBoolean = b: int | 0 <= b < 256

  const JniTrue: JBoolean := 1

  /**
   A returned value: its object reference (`None` for null), its boolean
   byte, and the text a stream would print for it as a number.
   */
  datatype JValue = JValue(l: Option<JObject>, z: JBoolean, numeric: string)

  /**
   The text for a value of type `typ`, chosen by its first character:
   references by name or `null`, booleans as words, numbers as printed, void as
   `<void>`, and anything else as an error naming the type.
   */
  function GetValOf(typ: string, val: JValue): (r: string)
    ensures IsReferenceChar(FirstChar(typ)) ==> r == (if val.l.None? then "null" else GetName(val.l.value))
    ensures FirstChar(typ) == 'Z' ==> (r == "true" <==> val.z == JniTrue)
                                      && (r == "false" <==> val.z != JniTrue)
    ensures IsNumericChar(FirstChar(typ)) ==> r == val.numeric
    ensures FirstChar(typ) == 'V' ==> r == "<void>"
    ensures !IsDescriptorChar(FirstChar(typ)) ==> r == "<ERROR Found type " + typ + ">"
  {
    match TagOf(typ)
    case ArrayTag => if val.l.Some? then GetName(val.l.value) else "null"
    case ObjectTag => if val.l.Some? then GetName(val.l.value) else "null"
    case BooleanTag => if val.z == JniTrue then "true" else "false"
    case ByteTag => val.numeric
    case CharTag => val.numeric
    case ShortTag => val.numeric
    case IntTag => val.numeric
    case LongTag => val.numeric
    case FloatTag => val.numeric
    case DoubleTag => val.numeric
    case VoidTag => "<void>"
    case OtherTag(_) => "<ERROR Found type " + typ + ">"
  }

  /** An empty type is read as a NUL first character and reported as an error. */
  lemma EmptyTypeIsError(val: JValue)
    ensures GetValOf("", val) == "<ERROR Found type >"
  {
  }

  const CausePrefix := "    Cause: "

  /**
   The cause line for a method leaving with descriptor `fsig` (a C string).
   The value is rendered only for a normal return; a method popped by an
   exception shows none.
   */
  function MethodExitCause(fsig: string, poppedByException: bool, val: JValue): (r: string)
    ensures poppedByException ==> r == CausePrefix + "exception."
    ensures !poppedByException ==> r == CausePrefix + "return " + GetValOf(ReturnType(CString(fsig)), val) + "."
  {
    var typ := ReturnType(CString(fsig));
    var outVal := if poppedByException then "" else GetValOf(typ, val);
    CausePrefix + (if poppedByException then "exception" else "return ") + outVal + "."
  }

  /**
   The cause line tells the two exits apart: the character after the prefix
   is `e` exactly for an exception.
   */
  lemma CauseTellsHowMethodLeft(fsig: string, popped: bool, val: JValue)
    ensures var r := MethodExitCause(fsig, popped, val);
            |r| > |CausePrefix| && (r[|CausePrefix|] == 'e' <==> popped)
  {
  }

  /** A normal exit from a method with descriptor `(params)ret` renders a value of type `ret`. */
  lemma ExitOfDescriptor(params: string, ret: string, val: JValue)
    requires ')' !in params && '\0' !in params && '\0' !in ret
    ensures MethodExitCause("(" + params + ")" + ret, false, val)
            == CausePrefix + "return " + GetValOf(ret, val) + "."
  {
    ReturnTypeOfCDescriptor(params, ret);
  }

  /** A void method's normal exit reads `return <void>.`, whatever its parameters. */
  lemma VoidMethodExit(params: string, val: JValue)
    requires ')' !in params && '\0' !in params
    ensures MethodExitCause("(" + params + ")V", false, val) == CausePrefix + "return " + "<void>" + "."
  {
    ExitOfDescriptor(params, "V", val);
    assert FirstChar("V") == 'V';
  }

  /** A `boolean` method's normal exit reads `true` only for the byte 1; 2 reads `false`. */
  lemma BooleanMethodExit(params: string, val: JValue)
    requires ')' !in params && '\0' !in params
    ensures MethodExitCause("(" + params + ")Z", false, val)
            == CausePrefix + "return " + (if val.z == 1 then "true" else "false") + "."
  {
    ExitOfDescriptor(params, "Z", val);
    assert FirstChar("Z") == 'Z';
  }

  lemma SignatureHasNoNul()
    ensures '\0' !in StringSignature && FirstChar(StringSignature) == 'L'
  {
  }

  /** A `java.lang.String` with available characters is named with its text. */
  lemma StringName(text: string)
    ensures GetName(JObject(Some(StringSignature), Some(text)))
            == StringSignature + ValueSuffix(CString(text))
  {
    SignatureHasNoNul();
  }

  /** A method returning a string shows its text, or `null`. */
  lemma StringMethodExit(params: string, text: string)
    requires ')' !in params && '\0' !in params
    ensures var fsig := "(" + params + ")" + StringSignature;
            var str := JObject(Some(StringSignature), Some(text));
            && MethodExitCause(fsig, false, JValue(Some(str), 0, ""))
               == CausePrefix + "return " + (StringSignature + ValueSuffix(CString(text))) + "."
            && MethodExitCause(fsig, false, JValue(None, 0, "")) == CausePrefix + "return " + "null" + "."
  {
    var str := JObject(Some(StringSignature), Some(text));
    SignatureHasNoNul();
    ExitOfDescriptor(params, StringSignature, JValue(Some(str), 0, ""));
    ExitOfDescriptor(params, StringSignature, JValue(None, 0, ""));
    StringName(text);
  }
}

=== FILE: stdstring.dfy ===
/**
 The two `std::string` operations the agent builds everything on: `find` of a
 single character and `substr`. A `size_t` result is either a real index or the
 sentinel `npos`, the largest `size_t`. Adding one to `npos` wraps around to 0;
 the option reader and the return-type extraction both depend on that wrap.
 */
module StdString {
  import opened Wrappers

  /** A `size_t` as `find` returns it: a position, or `npos`. */
  datatype SizeT = Index(i: nat) | Npos

  /** Index of the first occurrence of `c` in `s`, if any. */
  function IndexOf(s: string, c: char): (r: Option<nat>)
    ensures r.Some? <==> c in s
    ensures r.Some? ==> r.value < |s| && s[r.value] == c && c !in s[..r.value]
  {
    if |s| == 0 then None
    else if s[0] == c then Some(0)
    else
      match IndexOf(s[1..], c)
      case None => None
      case Some(k) =>
        assert s[1..][..k] == s[1..k + 1];
        assert s[..k + 1] == [s[0]] + s[1..k + 1];
        Some(k + 1)
  }

  /** `s.find(c)`. */
  function Find(s: string, c: char): (r: SizeT)
    ensures r.Npos? <==> c !in s
    ensures r.Index? ==> r.i < |s| && s[r.i] == c && c !in s[..r.i]
  {
    match IndexOf(s, c)
    case None => Npos
    case Some(k) => Index(k)
  }

  /**
   `p + 1` computed in `size_t`: one past a real index, and 0 for `npos`, whose
   successor wraps around the width of `size_t`.
   */
  function AfterFound(p: SizeT): (r: nat)
    ensures p.Index? ==> r == p.i + 1
    ensures p.Npos? ==> r == 0
  {
    match p
    case Index(i) => i + 1
    case Npos => 0
  }

  /**
   `s.substr(pos, count)`: at most `count` characters starting at `pos`; a count
   of `npos` means "to the end". `std::string` throws when `pos` is past the end,
   so callers must rule that out.
   */
  function Substr(s: string, pos: nat, count: SizeT): (r: string)
    requires pos <= |s|
    ensures count.Npos? ==> r == s[pos..]
    ensures count.Index? && pos + count.i <= |s| ==> r == s[pos..pos + count.i]
    ensures count.Index? && pos + count.i > |s| ==> r == s[pos..]
  {
    match count
    case Npos => s[pos..]
    case Index(n) => if pos + n <= |s| then s[pos..pos + n] else s[pos..]
  }

  /**
   The `std::string` built from a C string: the characters before the first
   NUL, or all of them when there is none.
   */
  function CString(s: string): (r: string)
    ensures '\0' !in r
    ensures |r| <= |s| && r == s[..|r|]
    ensures '\0' in s ==> |r| < |s| && s[|r|] == '\0'
    ensures '\0' !in s ==> r == s
  {
    Substr(s, 0, Find(s, '\0'))
  }
}

=== FILE: wrappers.dfy ===
/** An optional value, for lookups that may find nothing. */
module Wrappers {

  datatype Option<T> = None | Some(value: T)
}
